=== FILE: README.md ===
# Catalog query core of the White-and-Black storefront server

The server (`index.js`) exposes REST endpoints over a MongoDB product
collection. Almost every handler passes its request straight through to the
store; the few that hold decision logic are modelled here as pure functions
over an in-memory product collection (`seq<Product>`, in the store's natural
order):

- the category listing `GET /products/:category`, which turns the path token and
  the loose `minPrice` / `maxPrice` query parameters into one query: an
  inclusive price range plus an attribute constraint chosen by an ordered
  dispatch (`"deals"`, then `"regular-fit"` / `"slim-fit"`, then `"all"`, then
  any other token as a literal category);
- the price-and-stock summary `GET /products/:category/prices-and-stock`, which
  scopes by category (only `"all"` is special), answers all zeros for an empty
  set, and otherwise reports `Math.min` / `Math.max` of the parsed prices and
  the counts of the two literal statuses `"in-stock"` and `"sold-out"`;
- the restricted listing handler for `GET /products/category`, which accepts
  only a closed list of ten category tokens and rejects anything else before
  querying. As registered it is never reached: `/products/:category` is
  registered first and fits the same path (see "## Findings");
- the cart lookup `POST /get-cart-products`, which rejects a missing, non-array
  or empty `productIds` before any store access.

Modules: `Wrappers` (Option, Result), `Catalog` (documents, queries, and the
store's `find`), `Listing`, `Aggregation`, `RestrictedListing`, `CartProducts`,
and `Routing` (the GET routes in registration order and Express's
first-fit dispatch over them).

JavaScript numbers are `Number = NaN | Num(real)`. The request's query
parameters and the stored price texts enter the model already parsed:
`parseFloat` and `$toDouble` are not modelled, only their outcome (a value or
NaN). A missing upper bound (`Infinity`) is `None`. A NaN in the summary is what
the handler sends (JSON `null`); the model keeps it rather than skipping the
malformed price. Handler errors are `Err(InvalidCategory)` and
`Err(MissingProductIds)` (HTTP 400) and `Err(Internal)` (HTTP 500).

Some behaviour of `index.js` worth stating plainly: the summary does not skip
unparseable prices, so one NaN price makes both extremes NaN; an explicit
`maxPrice` of 0 lifts the upper bound, like a missing one; the category
listing takes no status parameter; and order confirmation is a bare
`insertOne` with no cart reconciliation.

## Model

| member | source | states |
|---|---|---|
| Catalog.Find | index.js:81-82 | the store's `find` returns exactly the stored documents matching the query, never more than the store holds |
| Catalog.FindAppend | index.js:81-82 | the result keeps store order: finding over a concatenation is the concatenation of the finds |
| Catalog.FindMultiplicity | index.js:81-82 | a matching document appears in the result as often as in the store, a non-matching one never |
| Listing.Compile | index.js:53-79 | lower bound is the parsed `minPrice` or 0 when NaN; upper bound is absent exactly when `maxPrice` is NaN or 0; `"deals"` gives `deals == true` and never `category == "deals"`; the two fit tokens give `fit == token`; `"all"` gives no attribute constraint; exactly the other tokens give `category == token` |
| Listing.ListProducts | index.js:50-83 | a product is listed iff it is stored, its price lies in the inclusive range with the documented defaults, and it meets the attribute rule of its token; multiplicities are the store's |
| Listing.DealsIgnoresCategoryField | index.js:67-69 | under `"deals"` a stored product is listed iff its deals flag is true and its price is in range, whatever its category field |
| Listing.AllIsPriceOnly | index.js:57-64 | under `"all"` only the price range decides membership |
| Listing.InclusiveEnds | index.js:60-61 | with bounds 20 and 50 a price of 19.99 is excluded and a price of 50.00 is included |
| Listing.ZeroMaxIsUnbounded | index.js:54 | an explicit `maxPrice` of 0 compiles to the same query as a missing one |
| Aggregation.Scoped | index.js:96-105 | the summary reads exactly the stored products whose category equals the token, or all of them for `"all"`, each as often as it is stored |
| Aggregation.ScopedCount | index.js:96-105 | counting a status among the rows read is counting it among the in-scope stored products |
| Aggregation.DealsIsLiteralCategory | index.js:97-100 | for `"deals"` the summary scope is the literal category, so a product filed under `"deals"` is included |
| Aggregation.Lowest | index.js:126 | `Math.min` over a non-empty list is NaN iff some element is NaN, and otherwise an element no larger than any other |
| Aggregation.Highest | index.js:127 | `Math.max` over a non-empty list is NaN iff some element is NaN, and otherwise an element no smaller than any other |
| Aggregation.CountStatus | index.js:130-135 | a status count never exceeds the number of rows |
| Aggregation.CountIsMultiplicity | index.js:130-135 | the count of a status is its multiplicity among the rows' statuses |
| Aggregation.StockCountsPartition | index.js:130-135 | in-stock plus sold-out counts are at most the row count, with equality iff every status is one of the two literals |
| Aggregation.Summarize | index.js:107-143 | empty set gives all zeros; otherwise both extremes are NaN iff some price is NaN, and else lowest <= highest, both occur among the prices and bound every price; the counts are the multiplicities of `"in-stock"` and `"sold-out"` |
| Aggregation.SummaryOverMembers | index.js:126-127 | the NaN rule, occurrence and bounds of both extremes, stated over the rows as a collection |
| Aggregation.PricesAndStock | index.js:92-143 | a category with no stored product gives the all-zero summary; the counts are the numbers of in-scope stored products with status `"in-stock"` and `"sold-out"`; otherwise both extremes are NaN iff some in-scope stored price is NaN, and else are prices of in-scope stored products bounding all of them |
| RestrictedListing.RestrictedQuery | index.js:676-692 | a query is built iff the parameter is one of the ten allowed tokens; that query has no price range and selects exactly the products whose category equals the token; otherwise `InvalidCategory` |
| RestrictedListing.ListByCategory | index.js:674-694 | the response is `InvalidCategory` iff the token is not allowed, and otherwise exactly the stored products of that category, each as often as it is stored |
| RestrictedListing.RejectionIgnoresStore | index.js:689-691 | a rejected token gives the same error whatever the store holds |
| RestrictedListing.ExactTokens | index.js:677-689 | no case folding (`"TShirt"` is rejected), `"all"` is rejected, `"deal"` and `"deals"` are both accepted |
| CartProducts.CartQuery | index.js:758-772 | a query is built iff `productIds` is a non-empty array; that query selects exactly the products whose id is listed; otherwise `MissingProductIds` |
| CartProducts.GetCartProducts | index.js:755-776 | `MissingProductIds` iff the list is not an array or empty; `Internal` iff some id is refused by the identifier constructor; success iff the list is a non-empty array of accepted ids, and then exactly the stored products whose id is listed, each as often as it is stored however often its id is listed |
| CartProducts.GuardIgnoresStore | index.js:761-765 | a rejected id list gives the same response whatever the store holds |
| Routing.FirstFit | index.js:50-786 | Express picks the first registered route whose pattern fits the path, or none when no pattern fits |
| Routing.ServeGet | index.js:50-786 | a request gets no route iff no registered pattern fits it; it is rejected only with `InvalidCategory`, and only when the first fitting route is bound to the allow-list handler |
| Routing.RestrictedListingShadowed | index.js:50-83 | as registered, `/products/category` is answered by the catalog listing with token `"category"`, whatever the `category` parameter |
| Routing.ShadowedNeverRejects | index.js:50-691 | in any table where `/products/:param` comes first and the allow-list handler is bound only to a later `/products/category`, no request is rejected by the allow-list |
| Routing.RestrictedListingUnreachable | index.js:674-691 | as registered, no request of any path is rejected by the allow-list |
| Routing.IntendedRestrictedListing | index.js:674-694 | with the literal routes registered first, `/products/category` rejects exactly the tokens outside the allow-list, answers with a product list exactly for the allowed ones, and that list is the stored products of the category at their stored multiplicities |
| Routing.ReorderKeepsFirstFit | index.js:50-786 | moving two routes to the front leaves the chosen route unchanged for every path neither of them fits |
| Routing.IntendedKeepsOtherRoutes | index.js:50-786 | the reordered table serves every other path exactly as registered |

## Left out

- Non-GET routes, middleware, configuration, the database connection and the
  response plumbing: handlers return values, and the store is a sequence.
  Express's path-matching details are listed under Routing.ServeGet below.
- `parseFloat` and `$toDouble`: the model takes their outcome as a `Number`.
  Each product carries one numeric reading of its price, used both by the
  listing's `$toDouble` and by the summary's `parseFloat`, although the two
  conversions differ on texts such as `"12abc"`.
- Catalog.InRange: a stored price that is not a number simply fails the range;
  MongoDB's `$toDouble` raises an error on such text, which would turn the whole
  listing into a server error.
- Aggregation.Summarize: a stored price text that parses to an infinite value
  (`"Infinity"`, `"1e400"`) is not representable; the handler would report
  an infinite extreme, which the response serialises as `null`.
- Aggregation.Summarize: `Math.min` / `Math.max` receive the whole price list
  as spread arguments; on a category too large for the engine's argument
  limit they throw and the handler answers 500, whereas the model always
  returns a summary.
- Listing.Compile: a `minPrice` or `maxPrice` text that parses to `Infinity`
  is not representable; the bounds are finite or absent.
- CartProducts.GetCartProducts: the elements of the `productIds` array are
  modelled as strings only; an array holding `null` or numbers, which the
  driver's identifier constructor turns into fresh or timestamp-based ids
  (answering 200 with no products), cannot be expressed.
- CartProducts.GetCartProducts: identifiers are compared as strings; the
  normalisation the driver's identifier type applies is not modelled, and
  whether the constructor accepts an id is a parameter, not its format rules.
- Single-document lookups by id (`ObjectId.isValid`), the title search (a
  MongoDB `$regex`), the newest / accessories / status listings (store sorting
  and limits): store behaviour not visible in this file.
- Routing.ServeGet: Express's case-insensitive matching, optional trailing
  slash and percent-decoding of path segments are not modelled; segments
  are compared exactly. Non-GET routes are not part of the route table.
- Order confirmation, order status update, posts, contact messages, moving
  texts, the highlight link, and product add / update / delete: field-for-field
  pass-throughs to the store with no decision logic.

## Findings

| source | as written | input that shows it | evidently intended | confidence | as-written member | corrected member |
|---|---|---|---|---|---|---|
| index.js:50 | `/products/:category` is registered before `/products/category` (index.js:674) and `/products/status` (index.js:703); its handler always responds, so the later two are never reached | `GET /products/category?category=TShirt` is answered by the catalog listing with token `"category"` instead of `400 Invalid category` | the literal routes are registered first, so the allow-list handler answers `/products/category` | high; not executed | Routing.RestrictedListingShadowed | Routing.IntendedRestrictedListing |

=== FILE: aggregation.dfy ===
/**
 * `GET /products/:category/prices-and-stock`: the lowest and highest price
 * and the in-stock / sold-out counts of the products in a category.
 */
module Aggregation {
  import opened Wrappers
  import opened Catalog

  const InStock := "in-stock"
  const SoldOut := "sold-out"

  /** The response body. A NaN price is serialised by the response as null. */
  datatype Summary = Summary(
    lowestPrice: Number,
    highestPrice: Number,
    inStockCount: nat,
    outOfStockCount: nat)

  /** The response for an empty product set. */
  const EmptySummary := Summary(Num(0.0), Num(0.0), 0, 0)

  /** The store query of the summary: only "all" is special; every other token,
      "deals" included, is a literal category match. No price range applies. */
  function Scope(category: string): Query {
    Query(None, if category == "all" then NoConstraint else CategoryIs(category))
  }

  /** Whether a stored product belongs to the summary of a category token. */
  predicate InScope(category: string, p: Product) {
    category == "all" || p.category == category
  }

  /** The documents the summary reads: the in-scope stored products, each as often as it is stored. */
  function Scoped(store: seq<Product>, category: string): (rows: seq<Product>)
    ensures forall p :: p in rows <==> p in store && InScope(category, p)
    ensures forall p :: multiset(rows)[p] == if InScope(category, p) then multiset(store)[p] else 0
  {
    forall p ensures multiset(Find(store, Scope(category)))[p] ==
                     if Matches(Scope(category), p) then multiset(store)[p] else 0 {
      FindMultiplicity(store, Scope(category), p);
    }
    Find(store, Scope(category))
  }

  /** The number of in-scope stored products with status `s`, counted over the store itself. */
  function CountInScope(store: seq<Product>, category: string, s: string): (n: nat)
    ensures n <= |store|
  {
    if |store| == 0 then 0
    else (if InScope(category, store[0]) && store[0].status == s then 1 else 0)
         + CountInScope(store[1..], category, s)
  }

  /** Counting a status among the rows the summary reads is counting it among the
      in-scope stored products. */
  lemma {:induction false} ScopedCount(store: seq<Product>, category: string, s: string)
    ensures CountStatus(Scoped(store, category), s) == CountInScope(store, category, s)
  {
    if |store| > 0 {
      ScopedCount(store[1..], category, s);
      var rows := Find(store, Scope(category));
      if Matches(Scope(category), store[0]) {
        assert rows[0] == store[0] && rows[1..] == Find(store[1..], Scope(category));
      }
    }
  }

  /** `Math.min(a, b)`: NaN if either operand is NaN. */
  function Min2(a: Number, b: Number): Number {
    if a.NaN? || b.NaN? then NaN else if a.value <= b.value then a else b
  }

  /** `Math.max(a, b)`: NaN if either operand is NaN. */
  function Max2(a: Number, b: Number): Number {
    if a.NaN? || b.NaN? then NaN else if a.value >= b.value then a else b
  }

  /** `Math.min(...xs)` over a non-empty list. */
  function Lowest(xs: seq<Number>): (r: Number)
    requires |xs| > 0
    ensures r.NaN? <==> NaN in xs
    ensures r.Num? ==> r in xs && forall i :: 0 <= i < |xs| ==> xs[i].Num? && r.value <= xs[i].value
  {
    if |xs| == 1 then xs[0]
    else
      var rest := Lowest(xs[1..]);
      assert xs == [xs[0]] + xs[1..];
      Min2(xs[0], rest)
  }

  /** `Math.max(...xs)` over a non-empty list. */
  function Highest(xs: seq<Number>): (r: Number)
    requires |xs| > 0
    ensures r.NaN? <==> NaN in xs
    ensures r.Num? ==> r in xs && forall i :: 0 <= i < |xs| ==> xs[i].Num? && xs[i].value <= r.value
  {
    if |xs| == 1 then xs[0]
    else
      var rest := Highest(xs[1..]);
      assert xs == [xs[0]] + xs[1..];
      Max2(xs[0], rest)
  }

  /** The numeric prices, one per row, in row order. */
  function Prices(rows: seq<Product>): (xs: seq<Number>)
    ensures |xs| == |rows|
  {
    seq(|rows|, i requires 0 <= i < |rows| => rows[i].price)
  }

  /** The status values, one per row, in row order. */
  function Statuses(rows: seq<Product>): (ss: seq<string>)
    ensures |ss| == |rows|
  {
    seq(|rows|, i requires 0 <= i < |rows| => rows[i].status)
  }

  /** `rows.filter(status === s).length`. */
  function CountStatus(rows: seq<Product>, s: string): (n: nat)
    ensures n <= |rows|
  {
    if |rows| == 0 then 0
    else (if rows[0].status == s then 1 else 0) + CountStatus(rows[1..], s)
  }

  /** The count of a status is its multiplicity among the rows' statuses. */
  lemma {:induction false} CountIsMultiplicity(rows: seq<Product>, s: string)
    ensures CountStatus(rows, s) == multiset(Statuses(rows))[s]
  {
    if |rows| > 0 {
      CountIsMultiplicity(rows[1..], s);
      assert Statuses(rows) == [rows[0].status] + Statuses(rows[1..]);
    }
  }

  /** The two literal statuses never overlap, and any other status counts as neither:
      the two counts add up to the number of rows exactly when every status is one of them. */
  lemma {:induction false} StockCountsPartition(rows: seq<Product>)
    ensures CountStatus(rows, InStock) + CountStatus(rows, SoldOut) <= |rows|
    ensures CountStatus(rows, InStock) + CountStatus(rows, SoldOut) == |rows| <==>
              forall i :: 0 <= i < |rows| ==> rows[i].status in {InStock, SoldOut}
  {
    if |rows| > 0 {
      StockCountsPartition(rows[1..]);
      assert forall i :: 1 <= i < |rows| ==> rows[i] == rows[1..][i - 1];
    }
  }

  /** The summary of a product set, as the handler computes it. */
  function Summarize(rows: seq<Product>): (s: Summary)
    ensures |rows| == 0 ==> s == EmptySummary
    ensures |rows| > 0 ==>
              (s.lowestPrice.NaN? <==> exists i :: 0 <= i < |rows| && rows[i].price.NaN?) &&
              (s.highestPrice.NaN? <==> exists i :: 0 <= i < |rows| && rows[i].price.NaN?)
    ensures |rows| > 0 && s.lowestPrice.Num? ==>
              && s.highestPrice.Num?
              && s.lowestPrice.value <= s.highestPrice.value
              && (exists i :: 0 <= i < |rows| && rows[i].price == s.lowestPrice)
              && (exists i :: 0 <= i < |rows| && rows[i].price == s.highestPrice)
              && (forall i :: 0 <= i < |rows| ==>
                    s.lowestPrice.value <= rows[i].price.value <= s.highestPrice.value)
    ensures s.inStockCount == multiset(Statuses(rows))[InStock]
    ensures s.outOfStockCount == multiset(Statuses(rows))[SoldOut]
    ensures s.inStockCount + s.outOfStockCount <= |rows|
  {
    CountIsMultiplicity(rows, InStock);
    CountIsMultiplicity(rows, SoldOut);
    StockCountsPartition(rows);
    if |rows| == 0 then EmptySummary
    else
      var prices := Prices(rows);
      var lo := Lowest(prices);
      var hi := Highest(prices);
      assert forall i :: 0 <= i < |rows| ==> prices[i] == rows[i].price;
      Summary(lo, hi, CountStatus(rows, InStock), CountStatus(rows, SoldOut))
  }

  /** The price facts of a summary, stated over the rows as a collection rather than by position. */
  lemma SummaryOverMembers(rows: seq<Product>)
    requires |rows| > 0
    ensures Summarize(rows).lowestPrice.NaN? <==> exists p :: p in rows && p.price.NaN?
    ensures Summarize(rows).highestPrice.NaN? <==> exists p :: p in rows && p.price.NaN?
    ensures Summarize(rows).lowestPrice.Num? ==>
              var s := Summarize(rows);
              && s.highestPrice.Num?
              && (exists p :: p in rows && p.price == s.lowestPrice)
              && (exists p :: p in rows && p.price == s.highestPrice)
              && (forall p :: p in rows ==> s.lowestPrice.value <= p.price.value <= s.highestPrice.value)
  {
  }

  /** The response of the summary handler for a category token, stated over the stored
      products of that category. */
  function PricesAndStock(store: seq<Product>, category: string): (s: Summary)
    ensures (forall p :: p in store ==> !InScope(category, p)) ==> s == EmptySummary
    ensures s.inStockCount == CountInScope(store, category, InStock)
    ensures s.outOfStockCount == CountInScope(store, category, SoldOut)
    ensures s.inStockCount + s.outOfStockCount <= |store|
    ensures (exists p :: p in store && InScope(category, p)) ==>
              (s.lowestPrice.NaN? <==> exists p :: p in store && InScope(category, p) && p.price.NaN?) &&
              (s.highestPrice.NaN? <==> exists p :: p in store && InScope(category, p) && p.price.NaN?)
    ensures s.lowestPrice.Num? && (exists p :: p in store && InScope(category, p)) ==>
              && s.highestPrice.Num?
              && (exists p :: p in store && InScope(category, p) && p.price == s.lowestPrice)
              && (exists p :: p in store && InScope(category, p) && p.price == s.highestPrice)
              && (forall p :: p in store && InScope(category, p) ==>
                    s.lowestPrice.value <= p.price.value <= s.highestPrice.value)
  {
    var rows := Scoped(store, category);
    ScopedCount(store, category, InStock);
    ScopedCount(store, category, SoldOut);
    if |rows| == 0 then Summarize(rows)
    else
      SummaryOverMembers(rows);
      Summarize(rows)
  }

  /** The summary for "deals" reads the category field, unlike the listing for "deals",
      which reads the deals flag: a product filed under "deals" is summarised there. */
  lemma DealsIsLiteralCategory(store: seq<Product>, p: Product)
    requires p in store && p.category == "deals"
    ensures p in Scoped(store, "deals")
  {
  }
}

=== FILE: cart.dfy ===
/**
 * `POST /get-cart-products`: the products whose identifiers a cart sends.
 * The identifier list is checked before any store access.
 */
module CartProducts {
  import opened Wrappers
  import opened Catalog

  /** The query for a request body, or the client error. `productIds` is None
      when the body's field is not an array. */
  function CartQuery(productIds: Option<seq<string>>): (r: Result<Query, Error>)
    ensures r.Err? <==> productIds.None? || |productIds.value| == 0
    ensures r.Err? ==> r.error == MissingProductIds
    ensures r.Ok? ==> r.value == Query(None, IdIn(productIds.value))
    ensures r.Ok? ==> forall p :: Matches(r.value, p) <==> p.id in productIds.value
  {
    if productIds.None? || |productIds.value| == 0 then Err(MissingProductIds)
    else Ok(Query(None, IdIn(productIds.value)))
  }

  /** The response of the handler. `objectIdAccepts(id)` says whether the driver's
      identifier constructor accepts `id`; when it throws, the handler answers 500. */
  function GetCartProducts(store: seq<Product>, productIds: Option<seq<string>>, objectIdAccepts: string -> bool)
    : (r: Result<seq<Product>, Error>)
    ensures productIds.None? || |productIds.value| == 0 <==> r == Err(MissingProductIds)
    ensures r == Err(Internal) <==>
              && productIds.Some?
              && exists i :: 0 <= i < |productIds.value| && !objectIdAccepts(productIds.value[i])
    ensures r.Ok? <==> && productIds.Some? && |productIds.value| > 0
                       && forall i :: 0 <= i < |productIds.value| ==> objectIdAccepts(productIds.value[i])
    ensures r.Ok? ==> forall p :: p in r.value <==> p in store && p.id in productIds.value
    ensures r.Ok? ==> forall p :: multiset(r.value)[p] ==
                                  if p.id in productIds.value then multiset(store)[p] else 0
  {
    match CartQuery(productIds)
    case Err(e) => Err(e)
    case Ok(q) =>
      forall p ensures multiset(Find(store, q))[p] == if Matches(q, p) then multiset(store)[p] else 0 {
        FindMultiplicity(store, q, p);
      }
      if exists i :: 0 <= i < |q.constraint.ids| && !objectIdAccepts(q.constraint.ids[i]) then Err(Internal)
      else Ok(Find(store, q))
  }

  /** A rejected identifier list never reaches the store. */
  lemma GuardIgnoresStore(s1: seq<Product>, s2: seq<Product>, productIds: Option<seq<string>>,
                          objectIdAccepts: string -> bool)
    requires productIds.None? || |productIds.value| == 0
    ensures GetCartProducts(s1, productIds, objectIdAccepts) == GetCartProducts(s2, productIds, objectIdAccepts)
  {
  }
}

=== FILE: catalog.dfy ===
/**
 * The product collection as the catalog handlers see it, and the queries
 * they hand to the document store. The collection is a sequence in the
 * store's natural order; running a query keeps the matching documents in
 * that order, duplicates included.
 */
module Catalog {
  import opened Wrappers

  /** A JavaScript number as the handlers compute it: NaN, or a finite value.
      Infinite values are not represented: a missing upper price bound is an
      absent bound instead, and infinite parsed prices are not modelled. */
  datatype Number = NaN | Num(value: real)

  /** A stored product document, restricted to the fields the core reads.
      `price` is the numeric reading of the stored price text. */
  datatype Product = Product(
    id: string,
    category: string,
    fit: Option<string>,
    deals: Option<bool>,
    price: Number,
    status: string)

  /** An inclusive price range; an absent upper bound is +Infinity. */
  datatype PriceRange = PriceRange(low: real, high: Option<real>)

  /** The attribute part of a product query. */
  datatype Constraint =
    | NoConstraint
    | DealsTrue
    | FitIs(fit: string)
    | CategoryIs(category: string)
    | IdIn(ids: seq<string>)

  /** A query: an optional price range (the `$expr` part) and one attribute constraint. */
  datatype Query = Query(range: Option<PriceRange>, constraint: Constraint)

  /** Handler failures: the first two are client errors (400), the last a server error (500). */
  datatype Error = InvalidCategory | MissingProductIds | Internal

  /** `$toDouble(price) >= low && $toDouble(price) <= high`; a price that is
      not a number never satisfies both comparisons. */
  predicate InRange(r: PriceRange, price: Number) {
    && price.Num?
    && r.low <= price.value
    && (r.high.None? || price.value <= r.high.value)
  }

  predicate Satisfies(c: Constraint, p: Product) {
    match c
    case NoConstraint => true
    case DealsTrue => p.deals == Some(true)
    case FitIs(f) => p.fit == Some(f)
    case CategoryIs(k) => p.category == k
    case IdIn(ids) => p.id in ids
  }

  predicate Matches(q: Query, p: Product) {
    && (q.range.None? || InRange(q.range.value, p.price))
    && Satisfies(q.constraint, p)
  }

  /** `collection.find(query).toArray()`: the matching documents in store order. */
  function Find(store: seq<Product>, q: Query): (r: seq<Product>)
    ensures |r| <= |store|
    ensures forall p :: p in r <==> p in store && Matches(q, p)
  {
    if |store| == 0 then []
    else if Matches(q, store[0]) then [store[0]] + Find(store[1..], q)
    else Find(store[1..], q)
  }

  /** Finding over two stretches of the store is finding over each in turn:
      the result keeps the store's order. */
  lemma {:induction false} FindAppend(a: seq<Product>, b: seq<Product>, q: Query)
    ensures Find(a + b, q) == Find(a, q) + Find(b, q)
  {
    if |a| == 0 {
      assert a + b == b;
    } else {
      assert (a + b)[1..] == a[1..] + b;
      FindAppend(a[1..], b, q);
    }
  }

  /** Every matching document is returned as often as it is stored; no other document is. */
  lemma {:induction false} FindMultiplicity(store: seq<Product>, q: Query, p: Product)
    ensures multiset(Find(store, q))[p] == if Matches(q, p) then multiset(store)[p] else 0
  {
    if |store| > 0 {
      assert store == [store[0]] + store[1..];
      FindMultiplicity(store[1..], q, p);
    }
  }
}

=== FILE: listing.dfy ===
/**
 * `GET /products/:category?minPrice=&maxPrice=`: the loose request
 * parameters become one compound query, a price range plus an attribute
 * constraint chosen by an ordered dispatch on the category token.
 */
module Listing {
  import opened Wrappers
  import opened Catalog

  /** The category tokens that select an attribute filter instead of the category field. */
  const FitTokens: set<string> := {"regular-fit", "slim-fit"}
  const SpecialTokens: set<string> := {"deals", "regular-fit", "slim-fit", "all"}

  /** `parseFloat(minPrice) || 0`: NaN and zero are both falsy. */
  function LowerBound(minPrice: Number): real {
    if minPrice.NaN? || minPrice.value == 0.0 then 0.0 else minPrice.value
  }

  /** `parseFloat(maxPrice) || Infinity`: NaN and an explicit zero both mean "no upper bound". */
  function UpperBound(maxPrice: Number): Option<real> {
    if maxPrice.NaN? || maxPrice.value == 0.0 then None else Some(maxPrice.value)
  }

  /** The attribute dispatch, tested top to bottom: "deals", the two fits, "all", anything else. */
  function Dispatch(category: string): Constraint {
    if category == "deals" then DealsTrue
    else if category == "regular-fit" then FitIs("regular-fit")
    else if category == "slim-fit" then FitIs("slim-fit")
    else if category != "all" then CategoryIs(category)
    else NoConstraint
  }

  /** The query the handler builds from the path token and the parsed query parameters. */
  function Compile(category: string, minPrice: Number, maxPrice: Number): (q: Query)
    ensures q.range.Some?
    ensures minPrice.Num? ==> q.range.value.low == minPrice.value
    ensures minPrice.NaN? ==> q.range.value.low == 0.0
    ensures q.range.value.high.None? <==> maxPrice.NaN? || maxPrice.value == 0.0
    ensures q.range.value.high.Some? ==> q.range.value.high.value == maxPrice.value
    ensures category == "deals" <==> q.constraint == DealsTrue
    ensures category in FitTokens <==> q.constraint == FitIs(category)
    ensures category == "all" <==> q.constraint == NoConstraint
    ensures category !in SpecialTokens <==> q.constraint == CategoryIs(category)
    ensures q.constraint != CategoryIs("deals")
  {
    Query(Some(PriceRange(LowerBound(minPrice), UpperBound(maxPrice))), Dispatch(category))
  }

  /** What the listing admits, read off the request directly rather than through the
      compiled query: both price ends inclusive, the lower end 0 when missing, the
      upper end open when missing or zero, and one attribute rule per kind of token. */
  predicate Admitted(category: string, minPrice: Number, maxPrice: Number, p: Product) {
    && p.price.Num?
    && (if minPrice.Num? then minPrice.value <= p.price.value else 0.0 <= p.price.value)
    && (maxPrice.Num? && maxPrice.value != 0.0 ==> p.price.value <= maxPrice.value)
    && (category == "deals" ==> p.deals == Some(true))
    && (category in FitTokens ==> p.fit == Some(category))
    && (category !in SpecialTokens ==> p.category == category)
  }

  /** The response of the listing: exactly the stored products the request admits, in store order. */
  function ListProducts(store: seq<Product>, category: string, minPrice: Number, maxPrice: Number)
    : (r: seq<Product>)
    ensures forall p :: p in r <==> p in store && Admitted(category, minPrice, maxPrice, p)
    ensures forall p :: multiset(r)[p] == if Admitted(category, minPrice, maxPrice, p) then multiset(store)[p] else 0
  {
    var q := Compile(category, minPrice, maxPrice);
    assert forall p :: Matches(q, p) <==> Admitted(category, minPrice, maxPrice, p);
    forall p ensures multiset(Find(store, q))[p] == if Matches(q, p) then multiset(store)[p] else 0 {
      FindMultiplicity(store, q, p);
    }
    Find(store, q)
  }

  /** Listing "deals" selects by the deals flag, whatever the category field says:
      a product filed under category "deals" without the flag is never listed there. */
  lemma DealsIgnoresCategoryField(store: seq<Product>, minPrice: Number, maxPrice: Number, p: Product)
    requires p in store
    ensures p in ListProducts(store, "deals", minPrice, maxPrice) <==>
              p.deals == Some(true) && Admitted("all", minPrice, maxPrice, p)
  {
  }

  /** With "all" only the price range applies. */
  lemma AllIsPriceOnly(store: seq<Product>, minPrice: Number, maxPrice: Number)
    ensures forall p :: p in ListProducts(store, "all", minPrice, maxPrice) <==>
              p in store && InRange(PriceRange(LowerBound(minPrice), UpperBound(maxPrice)), p.price)
  {
  }

  /** Both price ends are inclusive: with minPrice 20 and maxPrice 50 a product priced
      19.99 is excluded and one priced 50.00 is included. */
  lemma InclusiveEnds(a: Product, b: Product)
    requires a.price == Num(19.99) && b.price == Num(50.0)
    ensures !Admitted("all", Num(20.0), Num(50.0), a)
    ensures Admitted("all", Num(20.0), Num(50.0), b)
  {
  }

  /** An explicit maxPrice of 0 is swallowed by `|| Infinity`: it lifts the upper bound
      rather than admitting only free products. */
  lemma ZeroMaxIsUnbounded(category: string, minPrice: Number)
    ensures Compile(category, minPrice, Num(0.0)) == Compile(category, minPrice, NaN)
  {
  }
}

=== FILE: restricted.dfy ===
/**
 * `GET /products/category?category=`: a listing restricted to a closed
 * allow-list of category tokens, checked before any query is issued.
 * As registered, this handler is shadowed by `/products/:category`, which
 * fits the same path and is registered first (see the Routing module); this
 * module states what the handler itself does.
 */
module RestrictedListing {
  import opened Wrappers
  import opened Catalog

  /** The accepted tokens, compared exactly (no case folding, no trimming). */
  const AllowList: seq<string> :=
    ["tshirt", "polos", "shirt", "jackets", "headware",
     "bottomware", "deals", "accessories", "new", "deal"]

  /** The query for a request, or the client error. `category` is None when the
      parameter is missing or not a single string. */
  function RestrictedQuery(category: Option<string>): (r: Result<Query, Error>)
    ensures r.Err? <==> category.None? || category.value !in AllowList
    ensures r.Err? ==> r.error == InvalidCategory
    ensures r.Ok? ==> r.value == Query(None, CategoryIs(category.value))
    ensures r.Ok? ==> forall p :: Matches(r.value, p) <==> p.category == category.value
  {
    if category.None? || category.value !in AllowList then Err(InvalidCategory)
    else Ok(Query(None, CategoryIs(category.value)))
  }

  /** The response of the restricted listing. */
  function ListByCategory(store: seq<Product>, category: Option<string>): (r: Result<seq<Product>, Error>)
    ensures r.Err? <==> category.None? || category.value !in AllowList
    ensures r.Err? ==> r.error == InvalidCategory
    ensures r.Ok? ==> forall p :: p in r.value <==> p in store && p.category == category.value
    ensures r.Ok? ==> forall p :: multiset(r.value)[p] ==
                                  if p.category == category.value then multiset(store)[p] else 0
  {
    match RestrictedQuery(category)
    case Err(e) => Err(e)
    case Ok(q) =>
      forall p ensures multiset(Find(store, q))[p] == if Matches(q, p) then multiset(store)[p] else 0 {
        FindMultiplicity(store, q, p);
      }
      Ok(Find(store, q))
  }

  /** A rejected token never reaches the store: the response is the same whatever it holds. */
  lemma RejectionIgnoresStore(s1: seq<Product>, s2: seq<Product>, category: Option<string>)
    requires category.None? || category.value !in AllowList
    ensures ListByCategory(s1, category) == ListByCategory(s2, category) == Err(InvalidCategory)
  {
  }

  /** The list is exact: a token differing only in case is rejected, and "all",
      special in the other listings, is not accepted here. */
  lemma ExactTokens(store: seq<Product>)
    ensures ListByCategory(store, Some("TShirt")) == Err(InvalidCategory)
    ensures ListByCategory(store, Some("all")) == Err(InvalidCategory)
    ensures ListByCategory(store, Some("deal")).Ok? && ListByCategory(store, Some("deals")).Ok?
  {
    assert AllowList[0] == "tshirt" && AllowList[6] == "deals" && AllowList[9] == "deal";
  }
}

=== FILE: routing.dfy ===
/**
 * The GET routes of the server in registration order, and Express's
 * dispatch: a request goes to the first registered route whose pattern fits
 * its path, and none of the handlers passes the request on. A literal
 * segment fits only itself; a `:param` segment fits any non-empty segment.
 */
module Routing {
  import opened Wrappers
  import opened Catalog
  import Listing
  import Aggregation
  import RestrictedListing

  datatype Segment = Lit(text: string) | Param

  /** The handlers this model covers, and the others by the name of their route. */
  datatype Handler =
    | CatalogListing
    | PricesAndStockSummary
    | RestrictedCategoryListing
    | PassThrough(route: string)

  datatype Route = Route(pattern: seq<Segment>, handler: Handler)

  /** A GET request: the path split into segments, and the parsed query parameters. */
  datatype Request = Request(path: seq<string>, category: Option<string>, minPrice: Number, maxPrice: Number)

  datatype Response =
    | Products(items: seq<Product>)
    | Stock(summary: Aggregation.Summary)
    | Rejected(error: Error)
    | Unmodelled(route: string)
    | NoRoute

  /** The GET routes as `index.js` registers them. */
  const GetRoutes: seq<Route> := [
    Route([Lit("products"), Param], CatalogListing),
    Route([Lit("products"), Param, Lit("prices-and-stock")], PricesAndStockSummary),
    Route([Lit("product"), Lit("newlaunched")], PassThrough("newlaunched")),
    Route([Lit("product"), Param], PassThrough("product-by-id")),
    Route([Lit("product"), Lit("home"), Lit("accessories")], PassThrough("home-accessories")),
    Route([Lit("products"), Lit("search"), Param], PassThrough("search")),
    Route([Lit("order")], PassThrough("orders")),
    Route([Lit("order"), Param], PassThrough("order-by-id")),
    Route([Lit("top-moving-text")], PassThrough("top-moving-text")),
    Route([Lit("banner-moving-text")], PassThrough("banner-moving-text")),
    Route([Lit("second-banner-moving-text")], PassThrough("second-banner-moving-text")),
    Route([Lit("post")], PassThrough("posts")),
    Route([Lit("post"), Param], PassThrough("post-by-id")),
    Route([Lit("highlight-product-link")], PassThrough("highlight-product-link")),
    Route([Lit("contact-us")], PassThrough("contact-us")),
    Route([Lit("products"), Lit("category")], RestrictedCategoryListing),
    Route([Lit("products"), Lit("status")], PassThrough("products-by-status")),
    Route([], PassThrough("root"))
  ]

  /** The same routes with the two literal `/products/...` routes registered ahead of
      `/products/:category`, so that they are reachable. */
  const IntendedGetRoutes: seq<Route> := [GetRoutes[15], GetRoutes[16]] + GetRoutes[..15] + [GetRoutes[17]]

  predicate Fits(pattern: seq<Segment>, path: seq<string>) {
    && |pattern| == |path|
    && forall i :: 0 <= i < |path| ==>
         if pattern[i].Lit? then path[i] == pattern[i].text else path[i] != ""
  }

  /** The position of the first route from `k` on whose pattern fits the path. */
  function FirstFit(routes: seq<Route>, path: seq<string>, k: nat): (r: Option<nat>)
    requires k <= |routes|
    ensures r.Some? ==> k <= r.value < |routes| && Fits(routes[r.value].pattern, path)
    ensures r.Some? ==> forall j :: k <= j < r.value ==> !Fits(routes[j].pattern, path)
    ensures r.None? <==> forall j :: k <= j < |routes| ==> !Fits(routes[j].pattern, path)
    decreases |routes| - k
  {
    if k == |routes| then None
    else if Fits(routes[k].pattern, path) then Some(k)
    else FirstFit(routes, path, k + 1)
  }

  /** The handlers that read the category token from the path have it as second segment. */
  predicate WellFormed(routes: seq<Route>) {
    forall j :: 0 <= j < |routes| && (routes[j].handler.CatalogListing? || routes[j].handler.PricesAndStockSummary?) ==>
      |routes[j].pattern| >= 2
  }

  /** Express's dispatch of a GET request over a route table. */
  function ServeGet(routes: seq<Route>, store: seq<Product>, req: Request): (r: Response)
    requires WellFormed(routes)
    ensures r.NoRoute? <==> forall j :: 0 <= j < |routes| ==> !Fits(routes[j].pattern, req.path)
    ensures r.Rejected? ==> && r.error == InvalidCategory
                            && exists j :: && 0 <= j < |routes|
                                           && routes[j].handler == RestrictedCategoryListing
                                           && Fits(routes[j].pattern, req.path)
                                           && forall i :: 0 <= i < j ==> !Fits(routes[i].pattern, req.path)
  {
    match FirstFit(routes, req.path, 0)
    case None => NoRoute
    case Some(k) =>
      match routes[k].handler
      case CatalogListing =>
        Products(Listing.ListProducts(store, req.path[1], req.minPrice, req.maxPrice))
      case PricesAndStockSummary =>
        Stock(Aggregation.PricesAndStock(store, req.path[1]))
      case RestrictedCategoryListing =>
        (match RestrictedListing.ListByCategory(store, req.category)
         case Ok(items) => Products(items)
         case Err(e) => Rejected(e))
      case PassThrough(route) => Unmodelled(route)
  }

  /** As registered, `/products/category` is answered by the catalog listing with the
      token "category": the allow-list is never consulted, whatever the parameter is. */
  lemma RestrictedListingShadowed(store: seq<Product>, category: Option<string>, minPrice: Number, maxPrice: Number)
    ensures ServeGet(GetRoutes, store, Request(["products", "category"], category, minPrice, maxPrice))
            == Products(Listing.ListProducts(store, "category", minPrice, maxPrice))
  {
    var path := ["products", "category"];
    assert Fits(GetRoutes[0].pattern, path);
  }

  /** The only route to the allow-list handler is the one at position 15. */
  lemma OnlyRestrictedRoute()
    ensures forall k :: 0 <= k < |GetRoutes| && GetRoutes[k].handler == RestrictedCategoryListing ==> k == 15
  {
  }

  /** In any table where `/products/:param` comes first and the allow-list handler is bound
      only to a later `/products/category`, no request is rejected by the allow-list. */
  lemma ShadowedNeverRejects(routes: seq<Route>, store: seq<Product>, req: Request, k: nat)
    requires WellFormed(routes) && 0 < k < |routes|
    requires forall j :: 0 <= j < |routes| && routes[j].handler == RestrictedCategoryListing ==> j == k
    requires routes[0].pattern == [Lit("products"), Param]
    requires routes[k].pattern == [Lit("products"), Lit("category")]
    ensures !ServeGet(routes, store, req).Rejected?
  {
  }

  /** No request of any path reaches the allow-list handler as registered:
      `/products/:category` fits every path that `/products/category` fits. */
  lemma RestrictedListingUnreachable(store: seq<Product>, req: Request)
    ensures !ServeGet(GetRoutes, store, req).Rejected?
  {
    OnlyRestrictedRoute();
    ShadowedNeverRejects(GetRoutes, store, req, 15);
  }

  /** With the literal routes first, `/products/category` reaches the allow-list handler:
      a token outside the list is rejected and an allowed one lists its category. */
  lemma IntendedRestrictedListing(store: seq<Product>, category: Option<string>, minPrice: Number, maxPrice: Number)
    ensures var r := ServeGet(IntendedGetRoutes, store, Request(["products", "category"], category, minPrice, maxPrice));
            && (r == Rejected(InvalidCategory) <==> category.None? || category.value !in RestrictedListing.AllowList)
            && (r.Products? <==> category.Some? && category.value in RestrictedListing.AllowList)
            && (r.Products? ==> forall p :: p in r.items <==> p in store && p.category == category.value)
            && (r.Products? ==> forall p :: multiset(r.items)[p] ==
                                  if p.category == category.value then multiset(store)[p] else 0)
  {
    var path := ["products", "category"];
    assert IntendedGetRoutes[0] == Route([Lit("products"), Lit("category")], RestrictedCategoryListing);
    assert Fits(IntendedGetRoutes[0].pattern, path);
  }

  /** Moving the routes at positions 15 and 16 of an 18-route table to the front changes
      nothing for a path neither of them fits: the same route is chosen. */
  lemma {:induction false} ReorderKeepsFirstFit(G: seq<Route>, path: seq<string>)
    requires |G| == 18
    requires !Fits(G[15].pattern, path) && !Fits(G[16].pattern, path)
    ensures var I := [G[15], G[16]] + G[..15] + [G[17]];
            var a := FirstFit(G, path, 0);
            var b := FirstFit(I, path, 0);
            && (a.None? <==> b.None?)
            && (a.Some? ==> I[b.value] == G[a.value])
  {
    var I := [G[15], G[16]] + G[..15] + [G[17]];
    assert |I| == 18;
    assert I[0] == G[15] && I[1] == G[16] && I[17] == G[17];
    assert forall j :: 2 <= j < 17 ==> I[j] == G[j - 2];
    var a := FirstFit(G, path, 0);
    var b := FirstFit(I, path, 0);
    if a.Some? {
      var ka := a.value;
      var kb := if ka < 15 then ka + 2 else 17;
      assert I[kb] == G[ka];
    } else {
      forall j | 0 <= j < 18 ensures !Fits(I[j].pattern, path) {
        if 2 <= j < 17 { assert I[j] == G[j - 2]; }
      }
    }
  }

  /** The intended table serves every path other than the two literal ones as registered. */
  lemma IntendedKeepsOtherRoutes(store: seq<Product>, req: Request)
    requires !Fits(GetRoutes[15].pattern, req.path) && !Fits(GetRoutes[16].pattern, req.path)
    ensures ServeGet(IntendedGetRoutes, store, req) == ServeGet(GetRoutes, store, req)
  {
    ReorderKeepsFirstFit(GetRoutes, req.path);
  }
}

=== FILE: wrappers.dfy ===
/** Absent values and handler outcomes. */
module Wrappers {

  /** A value that may be absent: a missing document field, a missing or
      non-string request parameter, or a missing upper price bound. */
  datatype Option<+T> = None | Some(value: T)

  /** The outcome of a request handler: a response body or a client/server error. */
  datatype Result<+T, +E> = Ok(value: T) | Err(error: E)
}
